=== FILE: README.md ===
# static-couch, modelled in Dafny

`static-couch.py` builds a read-only, static mirror of a CouchDB-style database from a
local source directory. Every directory entry whose name ends in `.json`, after a prefix
that is not all dots, names one document, and its key is that prefix. So `a.b.json` gives
`a.b`, while `.json` and `..json` give no key, because `os.path.splitext` sees no
extension in them. The build raises if such an entry is not a readable file. The build
writes three kinds of file:

- a `_changes` feed with one record per document, numbered 1, 2, … in listing order,
  each with revision `1-` followed by the MD5 digest of the body file, and ending with
  `last_seq`;
- one output file per document, named by its key: the loaded body with `_id`, `_rev`,
  `_revisions` and `_attachments` assigned. `_attachments` inlines every file under the
  directory `KEY/` as a base64 attachment, and a file there that does not open makes the
  build raise;
- `index.html`, holding `{"update_seq": N}`.

This project models that local build as pure functions and methods over values. The
file system becomes a `SourceDir` value: the listing, the top-level file contents and
the walked trees. The output directory becomes a map from file name to what was last
written under that name. MD5, `mimetypes.guess_type` and `json.load` are library code,
so they are parameters of the model.

Modules, one per file:

- `wrappers.dfy`: `Option` and `Result`.
- `text.dfy`: octets, decimal numerals (`str(n)` and its parser), and text as lines.
- `base64.dfy`: the base64 encoding of section 4 of RFC 4648. It has a strict decoder,
  and the two are proved inverse in both directions.
- `json.dfy`: JSON values. Objects are ordered field lists with the semantics of a Python
  `dict`: assigning an existing name keeps its position, and a new name goes at the end.
- `listing.dfy`: `os.path.splitext` on directory entries, and `json_files`.
- `digest.dfy`: the chunked `md5sum` loop, and revision tags.
- `source.dfy`: the inputs of a build, and the exceptions it can raise.
- `changes.dfy`: `write_changes`, the exact `_changes` text, and a reader for that text.
- `attachments.dfy`: `process_attachments`.
- `documents.dfy`: `write_files`.
- `mirror.dfy`: `main`. It orders the writes, builds `index.html`, and relates
  `update_seq` to `last_seq`.

## Behaviour of the code

- **No keys.** With no keys, formatting `last_seq` at static-couch.py:68 uses the loop
  variable `i`, which was never bound, so the build raises `UnboundLocalError`. The model
  returns this as `UnboundLastSeq`.
- **Digest.** The revision digest covers only the body file, `KEY.json`
  (static-couch.py:63).
- **Keys and bodies.** Only `.json` entries become keys (static-couch.py:47-53). A
  missing body raises when `md5sum` opens it (static-couch.py:38, called at 63). A malformed
  body raises in `json.load` (static-couch.py:94). A body that is not a JSON object raises
  at the first assignment (static-couch.py:95).
- **Attachments.** The files under `KEY/` are opened after the body has loaded and its
  first three fields are assigned (static-couch.py:79, called at 98). The first one that
  does not open, such as a dangling symbolic link or a file without read permission, raises,
  and the attachments packed before it are lost.
- **Key order.** Keys keep the order of the directory listing, and `seq` numbers follow
  that order.

## Model

| member | source | states |
|---|---|---|
| Listing.SplitExt | static-couch.py:50 | root and extension concatenate back to the entry name |
| Listing.SplitExtShape | static-couch.py:50 | a non-empty extension is one dot followed by no dot, after a root that is not all dots; no extension means every candidate dot has only dots before it |
| Listing.JsonNameIff | static-couch.py:50-52 | an entry names a document exactly when it ends in `.json` and something other than dots precedes that; the key is that prefix |
| Listing.JsonFilesComplete | static-couch.py:47-53 | every `.json` entry's stem is a key |
| Listing.JsonFilesSound | static-couch.py:47-53 | every key is the stem of some `.json` entry |
| Listing.JsonFilesConcat | static-couch.py:49-52 | keys keep listing order: the keys of a concatenated listing are the keys of each part, in turn |
| Listing.JsonFilesDistinct | static-couch.py:47-53 | a listing without repeats gives keys without repeats |
| Digest.Read | static-couch.py:40 | a read returns the next `n` octets, or all that remain when fewer do |
| Digest.Md5Sum | static-couch.py:36-44 | the chunks fed to MD5 concatenate to the whole file, all but the last are exactly 8192 octets, none is empty, and the digest is MD5 of the whole file |
| Changes.WriteChanges | static-couch.py:56-69 | no keys raise; otherwise the build succeeds exactly when every body exists, and fails on the first missing one; the digests are MD5 of each body in key order; the text is exactly the header, the comma-separated records numbered from 1, the list close and `last_seq` |
| Changes.ParseFeedOf | static-couch.py:59-68 | for keys without newlines, reading the feed text back gives one record per key, in key order, with `seq` i+1, id the key and rev `1-` plus its digest, and `last_seq` equal to the number of keys |
| Base64.Encode | static-couch.py:80 | the encoding has 4·⌈n/3⌉ characters, all ASCII from the base64 alphabet or `=` |
| Base64.SextetOfCharOf | static-couch.py:80 | the alphabet is a bijection between 0..63 and its characters |
| Base64.DecodeEncode | static-couch.py:80 | decoding the encoding of any octet string gives it back |
| Base64.EncodeDecode | static-couch.py:80 | any text the strict decoder accepts is the encoding of what it decodes to |
| Json.Get | static-couch.py:95-98 | a name is absent exactly when no field has it |
| Json.Set | static-couch.py:95-98 | after `d[k] = v`, `k` reads `v` and every other name reads as before; an existing name keeps its position, a new one is appended |
| Json.SetKeepsNamesUnique | static-couch.py:95-98 | assignment never creates a duplicate name |
| Json.SetKeepsOrder | static-couch.py:95-98 | the old names are a prefix of the new ones |
| Attachments.Pack | static-couch.py:76-85 | the attachment object has exactly the fields `revops`, `content_type`, `data`, in that order; `revops` is 1, `content_type` is the guess for the opened path or null, and `data` is ASCII base64 that decodes to the file's contents |
| Attachments.PackTree | static-couch.py:72-86 | for a walk whose files all open, the attachment names are unique and are exactly the walked relative paths |
| Attachments.ProcessAttachments | static-couch.py:72-86 | packing succeeds exactly when every walked file opens, giving the entries of `PackTree`; otherwise it fails with `CannotOpenAttachment` of the path of the first file, in walk order, that does not open (line 79) |
| Attachments.AttachmentOfFile | static-couch.py:72-86 | in a walk whose files all open, each relative path maps to the attachment object of the last file walked with that path |
| Attachments.OneAttachmentPerFile | static-couch.py:74-81 | in a walk whose files all open, with distinct relative paths, the attachment names are the relative paths in walk order |
| Documents.Assemble | static-couch.py:95-98 | assembly succeeds exactly on objects; `_id`, `_rev`, `_revisions` and `_attachments` take their values; every other field is unchanged, and existing names keep their order |
| Documents.AssembleKeepsNamesUnique | static-couch.py:95-98 | a body without duplicate names assembles to a document without duplicate names |
| Documents.WriteFile | static-couch.py:91-98 | one document is written exactly when its body exists, parses and is an object, and every file under its directory opens. A missing body gives `CannotOpen`, a malformed one `MalformedJson`, and one that parses to something other than an object `NotAnObject`. Otherwise a file that does not open gives `CannotOpenAttachment` of the first such file |
| Documents.WriteFilesUpTo | static-couch.py:90-98 | the first `n` iterations succeed exactly when each does, giving the documents in key order; otherwise the error is that of the first failing iteration |
| Documents.WriteFiles | static-couch.py:89-102 | over `zip(keys, digests)`, success exactly when every body loads as an object and every file under its directory opens; each result is named by its key and is that key's assembled document; failure carries the first failing key's error |
| Mirror.WriteDocs | static-couch.py:100-102 | the written files are the previous ones plus one per document name |
| Mirror.WriteDocsLast | static-couch.py:100-102 | a file holds the last document written under its name |
| Mirror.WriteDocsKeeps | static-couch.py:100-102 | a file no document names keeps its content |
| Mirror.Output | static-couch.py:105-115 | with distinct names, the output holds `_changes`, `index.html` and one file per document; `index.html` holds `update_seq`; `_changes` holds the feed unless a document is named so; every document not named `index.html` is kept |
| Mirror.ParseUpdateSeqOf | static-couch.py:113-115 | `index.html` reads back as the number it was written with |
| Mirror.BuildMirror | static-couch.py:105-115 | no keys raise. Otherwise the build succeeds exactly when every body loads as an object and every file under each key's directory opens. A missing body fails with `CannotOpen` for the first missing key. When all bodies exist, the build fails with the error of the first key that fails: its body does not load as an object, or a file under its directory does not open. On success the output is the mirror of the source: each key's document, the feed, and `update_seq` |
| Mirror.MirrorDocumentsUnique | static-couch.py:94-98 | when `json.load` gives dicts, which never repeat a key, every document file of a mirror holds an object without repeated field names |
| Mirror.UpdateSeqIsLastSeq | static-couch.py:108-114 | in a mirror, the `update_seq` of `index.html` equals the `last_seq` of `_changes`, and both equal the number of documents |

## Left out

- Command-line parsing and output-directory creation (static-couch.py:14-31) are
  plumbing; the model starts from the source directory as a value.
- File-system I/O is abstracted: the listing, the file contents and the walked trees are
  inputs, and the output directory is a map from names to what was written. Partial
  output left behind by a build that raises is not modelled; a failing build is only its
  error.
- MD5 (`hashlib`), `mimetypes.guess_type` and `json.load` are parameters. The model
  states what the code does with their results, not how they compute them.
- `json.dump` with compact separators, and the newline after each document
  (static-couch.py:101-102), are not modelled as text. A document file holds the JSON
  value itself, whose field order is the one that would be written.
- Keys are written into `_changes` verbatim, without JSON escaping, as the code does.
  Changes.ParseFeedOf therefore assumes keys without newlines: a key with a newline
  would split a record line.
- `os.path.splitext` is modelled for directory entries only. Entries from `os.listdir`
  contain no `/`, so the separator search of `splitext` has nothing to do.
- `os.walk` order is whatever the file system gives, so a tree is a sequence in walk
  order. Each file's opened path and relative path are taken as given, not computed with
  `os.path.join` and `os.path.relpath`.
- The attachment field is written `revops`, as in the code. CouchDB's own name is
  `revpos`.
- The output directory is modelled as empty when the build starts. The code also builds
  into a directory that already exists: with `--force`, and also without it, because the
  "already exists" branch (static-couch.py:22-29) only prints a message and carries on.
  Files from an earlier build then stay. For example, the document of a key whose body
  has since been deleted stays, even though neither `_changes` nor `update_seq` lists
  it. The model does not describe such leftover files.
- A body file or a walked file is either read whole or does not open. A FIFO named
  `KEY.json` (static-couch.py:38) or found under `KEY/` (static-couch.py:79), on which
  `open` blocks, is not modelled. Nor are errors `os.walk` itself meets, which it ignores by
  default; the tree is whatever the walk yields.
- Mirror.BuildMirror and Changes.WriteChanges model file names and the text of
  `_changes` and `index.html` as Unicode strings. How that text is encoded to bytes is
  not modelled: neither the locale encoding nor newline translation. Python decodes a
  file name with bytes that are not valid in the file-system encoding to lone surrogate
  escapes. For example, `b'\xff.json'` gives the key `'\udcff'`, and a Dafny string cannot
  hold such a key. For such a key, and for a key the locale encoding cannot represent,
  the code raises `UnicodeEncodeError` when it writes the record to `_changes`
  (static-couch.py:58, 64-65), even when every body loads as an object. Their
  "succeeds exactly when" clauses do not cover that case.
- There is no remote mode (building from a live database) in this code, so none is
  modelled.

=== FILE: attachments.dfy ===
/** The attachment packer, `process_attachments` (static-couch.py:72-86): every file under
    a document's directory becomes an inline attachment keyed by its relative path, and a
    file that does not open ends the build. */
module Attachments {
  import opened Wrappers
  import opened Json
  import opened Source
  import opened Text
  import Base64

  /** `mimetypes.guess_type(path)[0]`: a content type, or `None` when the table has none. */
  type Guess = string -> Option<string>

  /** The content type as it appears in JSON: a string, or `null`. */
  function ContentType(guessed: Option<string>): Json {
    match guessed
    case Some(t) => Str(t)
    case None => Null
  }

  /** The field holds the base64 text of `content`: ASCII only, 4 * ceil(n / 3)
      characters, and decoding it gives back `content`. */
  predicate HoldsBase64Of(field: Option<Json>, content: seq<Byte>) {
    && field.Some? && field.value.Str?
    && Base64.Decode(field.value.s) == Some(content)
    && |field.value.s| == 4 * ((|content| + 2) / 3)
    && forall i :: 0 <= i < |field.value.s| ==> field.value.s[i] as int < 128
  }

  lemma EncodingHoldsBase64(content: seq<Byte>)
    ensures HoldsBase64Of(Some(Str(Base64.Encode(content))), content)
  {
    Base64.DecodeEncode(content);
  }

  /** The attachment object of one file that opened: `revops` 1, the guessed content type
      of the path the file was opened by, and the base64 text of its contents. */
  function Pack(f: AttFile, guess: Guess): (r: Json)
    requires f.content.Some?
    ensures r.Obj? && UniqueNames(r.fields)
    ensures Names(r.fields) == ["revops", "content_type", "data"]
    ensures Get(r.fields, "revops") == Some(Int(1))
    ensures Get(r.fields, "content_type") == Some(ContentType(guess(f.path)))
    ensures HoldsBase64Of(Get(r.fields, "data"), f.content.value)
  {
    var data := Str(Base64.Encode(f.content.value));
    EncodingHoldsBase64(f.content.value);
    var fields := [("revops", Int(1)), ("content_type", ContentType(guess(f.path))), ("data", data)];
    assert fields[1..] == [("content_type", ContentType(guess(f.path))), ("data", data)];
    assert fields[2..] == [("data", data)];
    assert Get(fields, "data") == Get(fields[2..], "data") == Some(data);
    Obj(fields)
  }

  /** Every walked file opens. */
  predicate Readable(tree: Tree) {
    forall i :: 0 <= i < |tree| ==> tree[i].content.Some?
  }

  /** File `i` is the first of the walk that does not open. */
  predicate FirstUnreadable(tree: Tree, i: nat) {
    && i < |tree|
    && tree[i].content.None?
    && forall j :: 0 <= j < i ==> tree[j].content.Some?
  }

  /** The relative paths of the walked files, in walk order. */
  function RelPaths(tree: Tree): (r: seq<string>)
    ensures |r| == |tree|
    ensures forall i :: 0 <= i < |tree| ==> r[i] == tree[i].relPath
    decreases |tree|
  {
    if |tree| == 0 then [] else RelPaths(tree[..|tree| - 1]) + [tree[|tree| - 1].relPath]
  }

  /** No later file of the tree has the same relative path as file `i`. */
  predicate LastWithPath(tree: Tree, i: nat)
    requires i < |tree|
  {
    forall j :: i < j < |tree| ==> tree[j].relPath != tree[i].relPath
  }

  /** The loop of `process_attachments` over a walk whose files all open: one entry per
      relative path; a new path goes at the end, and a path seen twice would keep its first
      position and take the later file's entry, as a Python dict does. */
  function PackTree(tree: Tree, guess: Guess): (r: Fields)
    requires Readable(tree)
    ensures UniqueNames(r)
    ensures forall k :: k in Names(r) <==> k in RelPaths(tree)
    decreases |tree|
  {
    if |tree| == 0 then []
    else
      var f := tree[|tree| - 1];
      var before := PackTree(tree[..|tree| - 1], guess);
      SetKeepsNamesUnique(before, f.relPath, Pack(f, guess));
      Set(before, f.relPath, Pack(f, guess))
  }

  /** The position of the first walked file that does not open. */
  function FirstUnreadableIndex(tree: Tree): (i: nat)
    requires !Readable(tree)
    ensures FirstUnreadable(tree, i)
    decreases |tree|
  {
    if tree[0].content.None? then 0
    else
      assert !Readable(tree[1..]) by {
        var j :| 0 <= j < |tree| && tree[j].content.None?;
        assert tree[1..][j - 1] == tree[j];
      }
      1 + FirstUnreadableIndex(tree[1..])
  }

  /** `process_attachments`: the attachments of the walk, or the error of the first file
      that does not open, which ends the loop. */
  function ProcessAttachments(tree: Tree, guess: Guess): (r: Result<Fields, Error>)
    ensures r.Success? <==> Readable(tree)
    ensures r.Success? ==> r.value == PackTree(tree, guess)
    ensures r.Failure? ==> exists i: nat :: FirstUnreadable(tree, i) && r.error == CannotOpenAttachment(tree[i].path)
  {
    if Readable(tree) then Success(PackTree(tree, guess))
    else
      var i := FirstUnreadableIndex(tree);
      Failure(CannotOpenAttachment(tree[i].path))
  }

  /** Packing one more file leaves the entries of other paths as they were. */
  lemma ProcessAttachmentsStep(tree: Tree, guess: Guess, k: string)
    requires Readable(tree) && |tree| > 0 && k != tree[|tree| - 1].relPath
    ensures Get(PackTree(tree, guess), k) == Get(PackTree(tree[..|tree| - 1], guess), k)
  {
  }

  /** The entry for a file's relative path is that file's attachment object (the last
      file with that path, should a path occur twice). */
  lemma {:induction false} AttachmentOfFile(tree: Tree, guess: Guess, i: nat)
    requires Readable(tree) && i < |tree| && LastWithPath(tree, i)
    ensures Get(PackTree(tree, guess), tree[i].relPath) == Some(Pack(tree[i], guess))
    decreases |tree|
  {
    if i < |tree| - 1 {
      var init := tree[..|tree| - 1];
      assert init[i] == tree[i];
      assert LastWithPath(init, i);
      AttachmentOfFile(init, guess, i);
      ProcessAttachmentsStep(tree, guess, tree[i].relPath);
    }
  }

  /** A walk never yields a relative path twice; then there is exactly one attachment per
      file, in walk order. */
  lemma {:induction false} OneAttachmentPerFile(tree: Tree, guess: Guess)
    requires Readable(tree)
    requires forall i, j :: 0 <= i < j < |tree| ==> tree[i].relPath != tree[j].relPath
    ensures Names(PackTree(tree, guess)) == RelPaths(tree)
    decreases |tree|
  {
    if |tree| > 0 {
      var init := tree[..|tree| - 1];
      var f := tree[|tree| - 1];
      assert Readable(init) by {
        forall i | 0 <= i < |init| ensures init[i].content.Some? {
          assert init[i] == tree[i];
        }
      }
      OneAttachmentPerFile(init, guess);
      assert f.relPath !in RelPaths(init);
      assert PackTree(tree, guess) == Set(PackTree(init, guess), f.relPath, Pack(f, guess));
      assert RelPaths(tree) == RelPaths(init) + [f.relPath];
    }
  }
}

=== FILE: base64.dfy ===
/** The base64 encoding of section 4 of RFC 4648 (standard alphabet, `=` padding, no
    line breaks): what Python's `base64.b64encode` produces for attachment payloads. */
module Base64 {
  import opened Wrappers
  import opened Text

  /** A 6-bit group: the index of one character of the alphabet. */
  type Sextet = i: int | 0 <= i < 64

  /** Table 1 of the RFC: A-Z, a-z, 0-9, '+', '/'. */
  function CharOf(i: Sextet): (c: char)
    ensures c as int < 128 && c != '='
  {
    if i < 26 then (65 + i) as char
    else if i < 52 then (97 + i - 26) as char
    else if i < 62 then (48 + i - 52) as char
    else if i == 62 then '+'
    else '/'
  }

  /** The value of an alphabet character, or `None` for any other character (padding included). */
  function SextetOf(c: char): (r: Option<Sextet>)
    ensures r.Some? ==> CharOf(r.value) == c
  {
    if 'A' <= c <= 'Z' then Some(c as int - 65)
    else if 'a' <= c <= 'z' then Some(c as int - 97 + 26)
    else if '0' <= c <= '9' then Some(c as int - 48 + 52)
    else if c == '+' then Some(62)
    else if c == '/' then Some(63)
    else None
  }

  lemma SextetOfCharOf(i: Sextet)
    ensures SextetOf(CharOf(i)) == Some(i)
  {
  }

  predicate IsAlphabetChar(c: char) {
    SextetOf(c).Some?
  }

  // The four 6-bit groups of a 24-bit input group, most significant first (RFC 4648, section 4).
  function S0(a: Byte): Sextet { a / 4 }
  function S1(a: Byte, b: Byte): Sextet { (a % 4) * 16 + b / 16 }
  function S2(b: Byte, c: Byte): Sextet { (b % 16) * 4 + c / 64 }
  function S3(c: Byte): Sextet { c % 64 }

  // The three octets of a 24-bit group read back from its four 6-bit groups.
  function Hi(i0: Sextet, i1: Sextet): Byte { i0 * 4 + i1 / 16 }
  function Mid(i1: Sextet, i2: Sextet): Byte { (i1 % 16) * 16 + i2 / 4 }
  function Lo(i2: Sextet, i3: Sextet): Byte { (i2 % 4) * 64 + i3 }

  lemma HiOfSextets(a: Byte, b: Byte)
    ensures Hi(S0(a), S1(a, b)) == a
  {
    assert S1(a, b) / 16 == a % 4;
  }

  lemma MidOfSextets(a: Byte, b: Byte, c: Byte)
    ensures Mid(S1(a, b), S2(b, c)) == b
  {
    assert S1(a, b) % 16 == b / 16;
    assert S2(b, c) / 4 == b % 16;
  }

  lemma LoOfSextets(b: Byte, c: Byte)
    ensures Lo(S2(b, c), S3(c)) == c
  {
    assert S2(b, c) % 4 == c / 64;
  }

  lemma SextetsOfHi(i0: Sextet, i1: Sextet, b: Byte)
    requires b / 16 == i1 % 16
    ensures S0(Hi(i0, i1)) == i0 && S1(Hi(i0, i1), b) == i1
  {
    assert Hi(i0, i1) % 4 == i1 / 16;
  }

  lemma SextetsOfMid(i1: Sextet, i2: Sextet, c: Byte)
    requires c / 64 == i2 % 4
    ensures S2(Mid(i1, i2), c) == i2
  {
    assert Mid(i1, i2) % 16 == i2 / 4;
  }

  lemma SextetOfLo(i2: Sextet, i3: Sextet)
    ensures S3(Lo(i2, i3)) == i3 && Lo(i2, i3) / 64 == i2 % 4
  {
  }

  lemma MidTop(i1: Sextet, i2: Sextet)
    ensures Mid(i1, i2) / 16 == i1 % 16
  {
  }

  /** Three octets become four characters (the full 24-bit group). */
  function EncodeTriple(a: Byte, b: Byte, c: Byte): string {
    [CharOf(S0(a)), CharOf(S1(a, b)), CharOf(S2(b, c)), CharOf(S3(c))]
  }

  /** The final quantum of exactly eight bits: two characters and two pad characters. */
  function EncodeOne(a: Byte): string {
    [CharOf(S0(a)), CharOf(S1(a, 0)), '=', '=']
  }

  /** The final quantum of exactly sixteen bits: three characters and one pad character. */
  function EncodeTwo(a: Byte, b: Byte): string {
    [CharOf(S0(a)), CharOf(S1(a, b)), CharOf(S2(b, 0)), '=']
  }

  /** The base64 text of `s`; the result is plain ASCII of length 4 * ceil(|s| / 3). */
  function Encode(s: seq<Byte>): (r: string)
    ensures |r| == 4 * ((|s| + 2) / 3)
    ensures forall i :: 0 <= i < |r| ==> r[i] as int < 128 && (IsAlphabetChar(r[i]) || r[i] == '=')
    decreases |s|
  {
    if |s| == 0 then []
    else if |s| == 1 then EncodeOne(s[0])
    else if |s| == 2 then EncodeTwo(s[0], s[1])
    else EncodeTriple(s[0], s[1], s[2]) + Encode(s[3..])
  }

  /** Four alphabet characters back to three octets. */
  function DecodeQuad(q: string): Option<seq<Byte>>
    requires |q| == 4
  {
    match (SextetOf(q[0]), SextetOf(q[1]), SextetOf(q[2]), SextetOf(q[3]))
    case (Some(i0), Some(i1), Some(i2), Some(i3)) => Some([Hi(i0, i1), Mid(i1, i2), Lo(i2, i3)])
    case _ => None
  }

  /** The last group of the text, which may carry one or two pad characters. Pad bits that
      are not zero are rejected, so that every accepted text is the encoding of its result. */
  function DecodeFinal(q: string): Option<seq<Byte>>
    requires |q| == 4
  {
    if q[2] == '=' && q[3] == '=' then
      match (SextetOf(q[0]), SextetOf(q[1]))
      case (Some(i0), Some(i1)) => if i1 % 16 == 0 then Some([Hi(i0, i1)]) else None
      case _ => None
    else if q[3] == '=' then
      match (SextetOf(q[0]), SextetOf(q[1]), SextetOf(q[2]))
      case (Some(i0), Some(i1), Some(i2)) => if i2 % 4 == 0 then Some([Hi(i0, i1), Mid(i1, i2)]) else None
      case _ => None
    else DecodeQuad(q)
  }

  /** Strict decoder: the text must be whole four-character groups, with padding only in the last. */
  function Decode(t: string): Option<seq<Byte>>
    decreases |t|
  {
    if |t| == 0 then Some([])
    else if |t| < 4 then None
    else if |t| == 4 then DecodeFinal(t)
    else match (DecodeQuad(t[..4]), Decode(t[4..]))
      case (Some(h), Some(rest)) => Some(h + rest)
      case _ => None
  }

  lemma TripleRoundTrip(a: Byte, b: Byte, c: Byte)
    ensures DecodeQuad(EncodeTriple(a, b, c)) == Some([a, b, c])
  {
    SextetOfCharOf(S0(a));
    SextetOfCharOf(S1(a, b));
    SextetOfCharOf(S2(b, c));
    SextetOfCharOf(S3(c));
    HiOfSextets(a, b);
    MidOfSextets(a, b, c);
    LoOfSextets(b, c);
  }

  lemma OneRoundTrip(a: Byte)
    ensures DecodeFinal(EncodeOne(a)) == Some([a])
  {
    SextetOfCharOf(S0(a));
    SextetOfCharOf(S1(a, 0));
    HiOfSextets(a, 0);
  }

  lemma TwoRoundTrip(a: Byte, b: Byte)
    ensures DecodeFinal(EncodeTwo(a, b)) == Some([a, b])
  {
    SextetOfCharOf(S0(a));
    SextetOfCharOf(S1(a, b));
    SextetOfCharOf(S2(b, 0));
    HiOfSextets(a, b);
    MidOfSextets(a, b, 0);
  }

  lemma DecodeEncodeOne(s: seq<Byte>)
    requires |s| == 1
    ensures Decode(Encode(s)) == Some(s)
  {
    assert Encode(s) == EncodeOne(s[0]);
    OneRoundTrip(s[0]);
    assert [s[0]] == s;
  }

  lemma DecodeEncodeTwo(s: seq<Byte>)
    requires |s| == 2
    ensures Decode(Encode(s)) == Some(s)
  {
    assert Encode(s) == EncodeTwo(s[0], s[1]);
    TwoRoundTrip(s[0], s[1]);
    assert [s[0], s[1]] == s;
  }

  lemma DecodeEncodeThree(s: seq<Byte>)
    requires |s| == 3
    ensures Decode(Encode(s)) == Some(s)
  {
    var q := EncodeTriple(s[0], s[1], s[2]);
    assert Encode(s[3..]) == [];
    assert Encode(s) == q;
    TripleRoundTrip(s[0], s[1], s[2]);
    assert q[3] != '=';
    assert DecodeFinal(q) == DecodeQuad(q);
    assert [s[0], s[1], s[2]] == s;
  }

  /** Decoding the encoding gives back the original octets, for every octet string. */
  lemma {:induction false} DecodeEncode(s: seq<Byte>)
    ensures Decode(Encode(s)) == Some(s)
    decreases |s|
  {
    if |s| == 1 {
      DecodeEncodeOne(s);
    } else if |s| == 2 {
      DecodeEncodeTwo(s);
    } else if |s| == 3 {
      DecodeEncodeThree(s);
    } else if |s| > 3 {
      var t := Encode(s);
      var head := EncodeTriple(s[0], s[1], s[2]);
      assert t == head + Encode(s[3..]);
      assert t[..4] == head;
      assert t[4..] == Encode(s[3..]);
      TripleRoundTrip(s[0], s[1], s[2]);
      DecodeEncode(s[3..]);
      assert [s[0], s[1], s[2]] + s[3..] == s;
    }
  }

  lemma QuadCanonical(q: string, a: Byte, b: Byte, c: Byte)
    requires |q| == 4
    requires DecodeQuad(q) == Some([a, b, c])
    ensures EncodeTriple(a, b, c) == q
  {
    var i0, i1, i2, i3 := SextetOf(q[0]).value, SextetOf(q[1]).value, SextetOf(q[2]).value, SextetOf(q[3]).value;
    assert a == Hi(i0, i1) && b == Mid(i1, i2) && c == Lo(i2, i3);
    MidTop(i1, i2);
    SextetOfLo(i2, i3);
    SextetsOfHi(i0, i1, b);
    SextetsOfMid(i1, i2, c);
  }

  lemma OneCanonical(q: string, s: seq<Byte>)
    requires |q| == 4 && q[2] == '=' && q[3] == '='
    requires DecodeFinal(q) == Some(s)
    ensures Encode(s) == q
  {
    var i0, i1 := SextetOf(q[0]).value, SextetOf(q[1]).value;
    SextetsOfHi(i0, i1, 0);
    assert s == [Hi(i0, i1)];
    assert Encode(s) == EncodeOne(s[0]);
  }

  lemma TwoCanonical(q: string, s: seq<Byte>)
    requires |q| == 4 && q[2] != '=' && q[3] == '='
    requires DecodeFinal(q) == Some(s)
    ensures Encode(s) == q
  {
    var i0, i1, i2 := SextetOf(q[0]).value, SextetOf(q[1]).value, SextetOf(q[2]).value;
    assert s == [Hi(i0, i1), Mid(i1, i2)];
    MidTop(i1, i2);
    SextetsOfHi(i0, i1, Mid(i1, i2));
    SextetsOfMid(i1, i2, 0);
    assert Encode(s) == EncodeTwo(s[0], s[1]);
  }

  lemma FinalCanonical(q: string, s: seq<Byte>)
    requires |q| == 4
    requires DecodeFinal(q) == Some(s)
    ensures Encode(s) == q
  {
    if q[2] == '=' && q[3] == '=' {
      OneCanonical(q, s);
    } else if q[3] == '=' {
      TwoCanonical(q, s);
    } else {
      assert DecodeQuad(q) == Some(s);
      QuadCanonical(q, s[0], s[1], s[2]);
      assert s[3..] == [];
      assert Encode(s) == EncodeTriple(s[0], s[1], s[2]);
    }
  }

  /** Every text the decoder accepts is exactly the encoding of what it decodes to. */
  lemma {:induction false} EncodeDecode(t: string, s: seq<Byte>)
    requires Decode(t) == Some(s)
    ensures Encode(s) == t
    decreases |t|
  {
    if |t| == 4 {
      FinalCanonical(t, s);
    } else if |t| > 4 {
      var h := DecodeQuad(t[..4]).value;
      var rest := Decode(t[4..]).value;
      assert s == h + rest;
      QuadCanonical(t[..4], h[0], h[1], h[2]);
      EncodeDecode(t[4..], rest);
      assert s[..3] == h;
      assert s[3..] == rest;
      assert t == t[..4] + t[4..];
    }
  }
}

=== FILE: changes.dfy ===
/** The change feed: `write_changes` (static-couch.py:56-69) writes `_changes` one record
    per key and returns the digests it computed. The text is described here as its lines,
    and `ParseFeed` reads such text back. */
module Changes {
  import opened Wrappers
  import opened Text
  import opened Digest
  import opened Source

  const ResultsLine := "{\"results\":["
  const SeqOpen := "{\"seq\":"
  const IdOpen := ",\"id\":\""
  const RevOpen := "\",\"changes\":[{\"rev\":\""
  const RecordClose := "\"}]}"
  const ListClose := "],"
  const LastSeqOpen := "\"last_seq\":"

  /** One change record, `{"seq":N,"id":"KEY","changes":[{"rev":"1-DIGEST"}]}`. The key
      is written verbatim, without JSON escaping. */
  function Record(seqNo: nat, id: string, digest: HexDigest): string {
    SeqOpen + NatToString(seqNo) + IdOpen + id + RevOpen + Rev(digest) + RecordClose
  }

  /** The first `n` record lines: record `i` carries sequence number `i + 1`, and every
      record line but the last ends with the `,` that separates it from the next. */
  function RecordLines(keys: seq<string>, digests: seq<HexDigest>, n: nat): (r: seq<string>)
    requires n <= |keys| && n <= |digests|
    ensures |r| == n
  {
    seq(n, i requires 0 <= i < n => Record(i + 1, keys[i], digests[i]) + (if i < n - 1 then "," else ""))
  }

  function LastSeqLine(n: nat): string {
    LastSeqOpen + NatToString(n) + "}"
  }

  /** The lines of a complete `_changes` file: the results header, the records, the list
      close, `last_seq`, and the empty string after the final newline. */
  function FeedLines(keys: seq<string>, digests: seq<HexDigest>): seq<string>
    requires 0 < |keys| == |digests|
  {
    [ResultsLine] + RecordLines(keys, digests, |keys|) + [ListClose, LastSeqLine(|keys|), ""]
  }

  /** Every key has a readable body file. */
  predicate BodiesPresent(keys: seq<string>, files: map<string, seq<Byte>>) {
    forall j :: 0 <= j < |keys| ==> BodyName(keys[j]) in files
  }

  lemma RecordLinesStep(keys: seq<string>, digests: seq<HexDigest>, d: HexDigest, i: nat)
    requires 0 < i < |keys| && |digests| == i
    ensures var ls := [ResultsLine] + RecordLines(keys, digests, i);
      [ResultsLine] + RecordLines(keys, digests + [d], i + 1)
        == ls[..|ls| - 1] + [ls[|ls| - 1] + ","] + [Record(i + 1, keys[i], d)]
  {
    var ls := [ResultsLine] + RecordLines(keys, digests, i);
    var lhs := [ResultsLine] + RecordLines(keys, digests + [d], i + 1);
    var rhs := ls[..|ls| - 1] + [ls[|ls| - 1] + ","] + [Record(i + 1, keys[i], d)];
    assert |lhs| == |rhs| == i + 2;
    forall k | 0 <= k < i + 2
      ensures lhs[k] == rhs[k]
    {
      if 0 < k <= i {
        assert lhs[k] == RecordLines(keys, digests + [d], i + 1)[k - 1];
        assert (digests + [d])[k - 1] == digests[k - 1];
        assert ls[k] == RecordLines(keys, digests, i)[k - 1];
      }
    }
  }

  /** Writing `,\n` and one more record adds one record line to the text. */
  lemma AppendRecord(keys: seq<string>, digests: seq<HexDigest>, d: HexDigest, i: nat)
    requires 0 < i < |keys| && |digests| == i
    ensures Unlines([ResultsLine] + RecordLines(keys, digests, i)) + ",\n" + Record(i + 1, keys[i], d)
      == Unlines([ResultsLine] + RecordLines(keys, digests + [d], i + 1))
  {
    var ls := [ResultsLine] + RecordLines(keys, digests, i);
    UnlinesExtendLast(ls, ",");
    UnlinesSnoc(ls[..|ls| - 1] + [ls[|ls| - 1] + ","], Record(i + 1, keys[i], d));
    RecordLinesStep(keys, digests, d, i);
  }

  /** The header and the first record are the first two lines. */
  lemma FirstRecord(keys: seq<string>, d: HexDigest)
    requires 0 < |keys|
    ensures ResultsLine + "\n" + Record(1, keys[0], d) == Unlines([ResultsLine] + RecordLines(keys, [d], 1))
  {
    assert RecordLines(keys, [d], 1)[0] == Record(1, keys[0], d) + "";
    assert Record(1, keys[0], d) + "" == Record(1, keys[0], d);
    assert [ResultsLine] + RecordLines(keys, [d], 1) == [ResultsLine, Record(1, keys[0], d)];
  }

  /** The list close and `last_seq` complete the feed's lines. */
  lemma CloseFeed(keys: seq<string>, digests: seq<HexDigest>)
    requires 0 < |keys| == |digests|
    ensures Unlines([ResultsLine] + RecordLines(keys, digests, |keys|)) + "\n" + ListClose + "\n"
      + LastSeqLine(|keys|) + "\n" == Unlines(FeedLines(keys, digests))
  {
    var ls := [ResultsLine] + RecordLines(keys, digests, |keys|);
    UnlinesSnoc(ls, ListClose);
    UnlinesSnoc(ls + [ListClose], LastSeqLine(|keys|));
    UnlinesSnoc(ls + [ListClose] + [LastSeqLine(|keys|)], "");
    assert ls + [ListClose] + [LastSeqLine(|keys|)] + [""] == FeedLines(keys, digests);
  }

  /** `write_changes`: the feed text and the digest of every key's body file, in key order.
      With no keys the loop never binds `i`, and formatting `last_seq` raises. */
  method WriteChanges(keys: seq<string>, files: map<string, seq<Byte>>, md5: Md5)
    returns (r: Result<(string, seq<HexDigest>), Error>)
    ensures |keys| == 0 ==> r == Failure(UnboundLastSeq)
    ensures r.Success? <==> |keys| > 0 && BodiesPresent(keys, files)
    ensures r.Failure? && |keys| > 0 ==>
      exists j :: 0 <= j < |keys| && r.error == CannotOpen(BodyName(keys[j])) && BodyName(keys[j]) !in files
        && forall j' :: 0 <= j' < j ==> BodyName(keys[j']) in files
    ensures r.Success? ==> |r.value.1| == |keys|
    ensures r.Success? ==> forall i :: 0 <= i < |keys| ==> r.value.1[i] == md5(files[BodyName(keys[i])])
    ensures r.Success? ==> r.value.0 == Unlines(FeedLines(keys, r.value.1))
  {
    var text := ResultsLine + "\n";
    var md5s: seq<HexDigest> := [];
    var i := 0;
    while i < |keys|
      invariant i <= |keys| && |md5s| == i
      invariant forall j :: 0 <= j < i ==> BodyName(keys[j]) in files && md5s[j] == md5(files[BodyName(keys[j])])
      invariant i == 0 ==> text == ResultsLine + "\n"
      invariant i > 0 ==> text == Unlines([ResultsLine] + RecordLines(keys, md5s, i))
    {
      var name := BodyName(keys[i]);
      if name !in files {
        return Failure(CannotOpen(name));
      }
      var digest, _ := Md5Sum(files[name], md5);
      var record := Record(i + 1, keys[i], digest);
      if i > 0 {
        AppendRecord(keys, md5s, digest, i);
        text := text + ",\n" + record;
      } else {
        FirstRecord(keys, digest);
        text := text + record;
      }
      md5s := md5s + [digest];
      i := i + 1;
    }
    text := text + "\n" + ListClose + "\n";
    if |keys| == 0 {
      return Failure(UnboundLastSeq);
    }
    text := text + LastSeqLine(i) + "\n";
    CloseFeed(keys, md5s);
    r := Success((text, md5s));
  }

  /** A change record as a client reads it back from `_changes`. */
  datatype Change = Change(seqNo: nat, id: string, rev: string)

  /** A whole `_changes` document as a client reads it back. */
  datatype Feed = Feed(results: seq<Change>, lastSeq: nat)

  /** Length of a revision tag: `1-` and 32 hex digits. */
  const RevLength: nat := 34

  /** Length of what follows the key in a record. */
  const TailLength: nat := |RevOpen| + RevLength + |RecordClose|

  /** Reads `{"seq":N` and returns N with the rest of the line. */
  function SplitSeq(line: string): Option<(nat, string)> {
    if |line| < |SeqOpen| || line[..|SeqOpen|] != SeqOpen || ',' !in line[|SeqOpen|..] then None
    else
      var rest := line[|SeqOpen|..];
      var c := FirstIndex(rest, ',');
      match ParseNat(rest[..c])
      case None => None
      case Some(n) => Some((n, rest[c..]))
  }

  /** Reads `","changes":[{"rev":"REV"}]}` and returns REV, which must be `1-` and 32 hex digits. */
  function ParseTail(tail: string): Option<string> {
    if |tail| != TailLength || tail[..|RevOpen|] != RevOpen || tail[|RevOpen| + RevLength..] != RecordClose then None
    else
      var rev := tail[|RevOpen|..|RevOpen| + RevLength];
      if rev[..2] == "1-" && IsHexDigest(rev[2..]) then Some(rev) else None
  }

  /** Reads `,"id":"ID` and the tail. The key is unescaped and may contain anything but a
      newline, so it is taken as everything before the fixed-length tail. */
  function SplitIdRev(body: string): Option<(string, string)> {
    if |body| < |IdOpen| + TailLength || body[..|IdOpen|] != IdOpen then None
    else match ParseTail(body[|body| - TailLength..])
      case None => None
      case Some(rev) => Some((body[|IdOpen|..|body| - TailLength], rev))
  }

  /** Reads one record line (without its separating comma). */
  function ParseRecord(line: string): Option<Change> {
    match SplitSeq(line)
    case None => None
    case Some((n, body)) =>
      match SplitIdRev(body)
      case None => None
      case Some((id, rev)) => Some(Change(n, id, rev))
  }

  /** Reads record line `i`; every line but the last must end with the separating `,`. */
  function RecordAt(lines: seq<string>, i: nat): Option<Change>
    requires i < |lines|
  {
    if i == |lines| - 1 then ParseRecord(lines[i])
    else if |lines[i]| > 0 && lines[i][|lines[i]| - 1] == ',' then ParseRecord(lines[i][..|lines[i]| - 1])
    else None
  }

  function ParseRecords(lines: seq<string>): Option<seq<Change>> {
    if forall i :: 0 <= i < |lines| ==> RecordAt(lines, i).Some? then
      Some(seq(|lines|, i requires 0 <= i < |lines| => RecordAt(lines, i).value))
    else None
  }

  function ParseLastSeq(line: string): Option<nat> {
    if |line| < |LastSeqOpen| + 1 || line[..|LastSeqOpen|] != LastSeqOpen || line[|line| - 1] != '}' then None
    else ParseNat(line[|LastSeqOpen|..|line| - 1])
  }

  /** Reads a `_changes` file written by `WriteChanges`. */
  function ParseFeed(text: string): Option<Feed> {
    var ls := Lines(text);
    if |ls| < 5 || ls[0] != ResultsLine || ls[|ls| - 3] != ListClose || ls[|ls| - 1] != "" then None
    else match (ParseRecords(ls[1..|ls| - 3]), ParseLastSeq(ls[|ls| - 2]))
      case (Some(changes), Some(n)) => Some(Feed(changes, n))
      case _ => None
  }

  lemma SplitSeqOf(seqNo: nat, body: string)
    requires |body| > 0 && body[0] == ','
    ensures SplitSeq(SeqOpen + NatToString(seqNo) + body) == Some((seqNo, body))
  {
    var num := NatToString(seqNo);
    var line := SeqOpen + num + body;
    assert line[..|SeqOpen|] == SeqOpen;
    var rest := line[|SeqOpen|..];
    assert rest == num + body;
    FirstIndexAfter(num, body, ',');
    assert rest[..|num|] == num;
    assert rest[|num|..] == body;
    ParseNatOfNatToString(seqNo);
  }

  lemma ParseTailOf(d: HexDigest)
    ensures ParseTail(RevOpen + Rev(d) + RecordClose) == Some(Rev(d))
  {
    var tail := RevOpen + Rev(d) + RecordClose;
    assert tail[..|RevOpen|] == RevOpen;
    assert tail[|RevOpen|..|RevOpen| + RevLength] == Rev(d);
    assert tail[|RevOpen| + RevLength..] == RecordClose;
    assert Rev(d)[2..] == d;
  }

  lemma SplitIdRevOf(id: string, d: HexDigest)
    ensures SplitIdRev(IdOpen + id + RevOpen + Rev(d) + RecordClose) == Some((id, Rev(d)))
  {
    var tail := RevOpen + Rev(d) + RecordClose;
    var body := IdOpen + id + tail;
    assert IdOpen + id + RevOpen + Rev(d) + RecordClose == body;
    assert |tail| == TailLength;
    assert body[..|IdOpen|] == IdOpen;
    assert body[|IdOpen|..|body| - TailLength] == id;
    assert body[|body| - TailLength..] == tail;
    ParseTailOf(d);
  }

  /** A record reads back as its sequence number, its key and its revision tag. */
  lemma ParseRecordOf(seqNo: nat, id: string, d: HexDigest)
    ensures ParseRecord(Record(seqNo, id, d)) == Some(Change(seqNo, id, Rev(d)))
  {
    var body := IdOpen + id + RevOpen + Rev(d) + RecordClose;
    assert Record(seqNo, id, d) == SeqOpen + NatToString(seqNo) + body;
    SplitSeqOf(seqNo, body);
    SplitIdRevOf(id, d);
  }

  lemma DigitsHaveNoNewline(n: nat)
    ensures NoNewline(NatToString(n)) && ',' !in NatToString(n)
  {
  }

  lemma RecordHasNoNewline(seqNo: nat, id: string, d: HexDigest, sep: string)
    requires NoNewline(id) && NoNewline(sep)
    ensures NoNewline(Record(seqNo, id, d) + sep)
  {
    DigitsHaveNoNewline(seqNo);
    assert NoNewline(Rev(d));
  }

  /** The changes a feed over `keys` lists: the i-th (from 0) has sequence number i + 1,
      the i-th key and the revision tag of the i-th digest. */
  function ExpectedChanges(keys: seq<string>, digests: seq<HexDigest>): seq<Change>
    requires |keys| == |digests|
  {
    seq(|keys|, i requires 0 <= i < |keys| => Change(i + 1, keys[i], Rev(digests[i])))
  }

  lemma RecordAtStripsComma(lines: seq<string>, i: nat, line: string)
    requires i < |lines| - 1 && lines[i] == line + ","
    ensures RecordAt(lines, i) == ParseRecord(line)
  {
    assert lines[i][..|lines[i]| - 1] == line;
  }

  lemma RecordLineIs(keys: seq<string>, digests: seq<HexDigest>, i: nat)
    requires i < |keys| == |digests|
    ensures var lines := RecordLines(keys, digests, |keys|);
      if i < |keys| - 1 then lines[i] == Record(i + 1, keys[i], digests[i]) + ","
      else lines[i] == Record(i + 1, keys[i], digests[i])
  {
    var record := Record(i + 1, keys[i], digests[i]);
    assert record + "" == record;
  }

  lemma RecordLineParses(keys: seq<string>, digests: seq<HexDigest>, i: nat)
    requires i < |keys| == |digests|
    ensures RecordAt(RecordLines(keys, digests, |keys|), i) == Some(Change(i + 1, keys[i], Rev(digests[i])))
  {
    var lines := RecordLines(keys, digests, |keys|);
    ParseRecordOf(i + 1, keys[i], digests[i]);
    RecordLineIs(keys, digests, i);
    if i < |keys| - 1 {
      RecordAtStripsComma(lines, i, Record(i + 1, keys[i], digests[i]));
    }
  }

  lemma ParseRecordsOf(keys: seq<string>, digests: seq<HexDigest>)
    requires 0 < |keys| == |digests|
    ensures ParseRecords(RecordLines(keys, digests, |keys|)) == Some(ExpectedChanges(keys, digests))
  {
    var n := |keys|;
    var lines := RecordLines(keys, digests, n);
    forall i | 0 <= i < n
      ensures RecordAt(lines, i) == Some(Change(i + 1, keys[i], Rev(digests[i])))
    {
      RecordLineParses(keys, digests, i);
    }
    var parsed := seq(n, i requires 0 <= i < n => RecordAt(lines, i).value);
    assert ParseRecords(lines) == Some(parsed);
    assert parsed == ExpectedChanges(keys, digests);
  }

  lemma ParseLastSeqOf(n: nat)
    ensures ParseLastSeq(LastSeqLine(n)) == Some(n)
  {
    var line := LastSeqLine(n);
    assert line[..|LastSeqOpen|] == LastSeqOpen;
    assert line[|LastSeqOpen|..|line| - 1] == NatToString(n);
    ParseNatOfNatToString(n);
  }

  /** The feed text reads back, for keys without newlines, as exactly one record per key in
      key order, numbered 1, 2, ..., with revision `1-` + that key's digest, and `last_seq`
      equal to the number of keys. */
  lemma ParseFeedOf(keys: seq<string>, digests: seq<HexDigest>)
    requires 0 < |keys| == |digests|
    requires forall i :: 0 <= i < |keys| ==> NoNewline(keys[i])
    ensures ParseFeed(Unlines(FeedLines(keys, digests))) == Some(Feed(ExpectedChanges(keys, digests), |keys|))
  {
    var n := |keys|;
    var ls := FeedLines(keys, digests);
    var records := RecordLines(keys, digests, n);
    forall i | 0 <= i < |ls|
      ensures NoNewline(ls[i])
    {
      if 1 <= i <= n {
        assert ls[i] == records[i - 1];
        RecordHasNoNewline(i, keys[i - 1], digests[i - 1], if i - 1 < n - 1 then "," else "");
      } else if i == n + 2 {
        DigitsHaveNoNewline(n);
      }
    }
    LinesOfUnlines(ls);
    assert ls[1..|ls| - 3] == records;
    ParseRecordsOf(keys, digests);
    ParseLastSeqOf(n);
  }
}

=== FILE: digest.dfy ===
/** The per-document digest: `md5sum` (static-couch.py:36-44) reads the body file in
    fixed-size chunks and feeds each to an MD5 object. MD5 itself is library code and is
    a parameter here: any function from octet strings to 32 lowercase hex digits. */
module Digest {
  import opened Text

  predicate IsHexDigit(c: char) {
    '0' <= c <= '9' || 'a' <= c <= 'f'
  }

  predicate IsHexDigest(s: string) {
    |s| == 32 && forall i :: 0 <= i < |s| ==> IsHexDigit(s[i])
  }

  /** What `hashlib.md5().hexdigest()` returns. */
  type HexDigest = s: string | IsHexDigest(s) witness "00000000000000000000000000000000"

  /** The MD5 function, left uninterpreted. */
  type Md5 = seq<Byte> -> HexDigest

  /** `hashlib.md5().block_size`. */
  const BlockSize: nat := 64

  /** The read size of `md5sum`: `md5.block_size * 128` octets. */
  const ChunkSize: nat := BlockSize * 128

  /** The concatenation of the chunks, in order. */
  function Flatten(chunks: seq<seq<Byte>>): seq<Byte>
    decreases |chunks|
  {
    if |chunks| == 0 then [] else Flatten(chunks[..|chunks| - 1]) + chunks[|chunks| - 1]
  }

  /** `f.read(n)` on a file positioned at `pos`: up to `n` octets, fewer only at the end. */
  function Read(file: seq<Byte>, pos: nat, n: nat): (data: seq<Byte>)
    requires pos <= |file|
    ensures |data| == if pos + n <= |file| then n else |file| - pos
    ensures data == file[pos..pos + |data|]
  {
    if pos + n <= |file| then file[pos..pos + n] else file[pos..]
  }

  /** The revision tag of the one revision a mirrored document has: `1-` then the digest. */
  function Rev(digest: HexDigest): string {
    "1-" + digest
  }

  /** An MD5 object: everything passed to `update` so far. */
  datatype Md5State = Md5State(fed: seq<Byte>) {
    function Update(data: seq<Byte>): Md5State {
      Md5State(fed + data)
    }

    function HexDigestOf(md5: Md5): HexDigest {
      md5(fed)
    }
  }

  /** `md5sum`: reads chunks until a read comes back empty, feeding each to MD5. The
      chunks passed to `update` are returned too: together they are the whole file, each
      is a full chunk except possibly the last, so the digest is MD5 of the whole file. */
  method Md5Sum(file: seq<Byte>, md5: Md5) returns (digest: HexDigest, chunks: seq<seq<Byte>>)
    ensures Flatten(chunks) == file
    ensures forall k :: 0 <= k < |chunks| ==> 0 < |chunks[k]| <= ChunkSize
    ensures forall k :: 0 <= k < |chunks| - 1 ==> |chunks[k]| == ChunkSize
    ensures digest == md5(file)
  {
    var state := Md5State([]);
    var pos := 0;
    chunks := [];
    while true
      invariant pos <= |file|
      invariant state.fed == file[..pos] == Flatten(chunks)
      invariant forall k :: 0 <= k < |chunks| ==> 0 < |chunks[k]| <= ChunkSize
      invariant forall k :: 0 <= k < |chunks| ==> |chunks[k]| == ChunkSize || (k == |chunks| - 1 && pos == |file|)
      decreases |file| - pos
    {
      var data := Read(file, pos, ChunkSize);
      if |data| == 0 {
        break;
      }
      state := state.Update(data);
      assert Flatten(chunks + [data]) == Flatten(chunks) + data by {
        assert (chunks + [data])[..|chunks|] == chunks;
      }
      chunks := chunks + [data];
      pos := pos + |data|;
    }
    assert file[..pos] == file;
    digest := state.HexDigestOf(md5);
  }
}

=== FILE: documents.dfy ===
/** The document assembler, `write_files` (static-couch.py:89-102): each key's body is
    loaded, its four metadata fields are assigned, and the result is written under the key. */
module Documents {
  import opened Wrappers
  import opened Text
  import opened Json
  import opened Digest
  import opened Source
  import opened Attachments

  /** `json.load` of a body file: the value, or `None` when the file is not valid JSON. */
  type Load = seq<Byte> -> Option<Json>

  /** The names `write_files` assigns. */
  predicate IsMetaName(k: string) {
    k == "_id" || k == "_rev" || k == "_revisions" || k == "_attachments"
  }

  /** `{"start": 1, "ids": [digest]}`: a revision history of one revision. */
  function Revisions(digest: HexDigest): Json {
    Obj([("start", Int(1)), ("ids", Arr([Str(digest)]))])
  }

  /** The four assignments of static-couch.py:95-98 on a loaded body. They raise unless the
      body is a JSON object. Each assignment replaces a field of that name in place or
      appends it; every other field keeps its value and its position. */
  function Assemble(body: Json, key: string, digest: HexDigest, attachments: Fields): (r: Option<Json>)
    ensures r.Some? <==> body.Obj?
    ensures r.Some? ==> r.value.Obj?
    ensures r.Some? ==> Get(r.value.fields, "_id") == Some(Str(key))
    ensures r.Some? ==> Get(r.value.fields, "_rev") == Some(Str(Rev(digest)))
    ensures r.Some? ==> Get(r.value.fields, "_revisions") == Some(Revisions(digest))
    ensures r.Some? ==> Get(r.value.fields, "_attachments") == Some(Obj(attachments))
    ensures r.Some? ==> forall k :: !IsMetaName(k) ==> Get(r.value.fields, k) == Get(body.fields, k)
    ensures r.Some? ==> Names(body.fields) <= Names(r.value.fields)
  {
    match body
    case Obj(fields) =>
      var f1 := Set(fields, "_id", Str(key));
      var f2 := Set(f1, "_rev", Str(Rev(digest)));
      var f3 := Set(f2, "_revisions", Revisions(digest));
      var f4 := Set(f3, "_attachments", Obj(attachments));
      assert Get(f4, "_id") == Get(f3, "_id") == Get(f2, "_id") == Get(f1, "_id");
      assert Get(f4, "_rev") == Get(f3, "_rev") == Get(f2, "_rev");
      assert Get(f4, "_revisions") == Get(f3, "_revisions");
      SetKeepsOrder(fields, "_id", Str(key));
      SetKeepsOrder(f1, "_rev", Str(Rev(digest)));
      SetKeepsOrder(f2, "_revisions", Revisions(digest));
      SetKeepsOrder(f3, "_attachments", Obj(attachments));
      PrefixTransitive(Names(fields), Names(f1), Names(f2));
      PrefixTransitive(Names(fields), Names(f2), Names(f3));
      PrefixTransitive(Names(fields), Names(f3), Names(f4));
      Some(Obj(f4))
    case _ => None
  }

  /** A loaded body without repeated names assembles to a document without repeated names. */
  lemma AssembleKeepsNamesUnique(body: Json, key: string, digest: HexDigest, attachments: Fields)
    requires body.Obj? && UniqueNames(body.fields)
    ensures UniqueNames(Assemble(body, key, digest, attachments).value.fields)
  {
    var f1 := Set(body.fields, "_id", Str(key));
    var f2 := Set(f1, "_rev", Str(Rev(digest)));
    var f3 := Set(f2, "_revisions", Revisions(digest));
    SetKeepsNamesUnique(body.fields, "_id", Str(key));
    SetKeepsNamesUnique(f1, "_rev", Str(Rev(digest)));
    SetKeepsNamesUnique(f2, "_revisions", Revisions(digest));
    SetKeepsNamesUnique(f3, "_attachments", Obj(attachments));
  }

  /** The body file of `key` exists, is valid JSON and holds an object. */
  predicate Loads(src: SourceDir, key: string, load: Load) {
    BodyName(key) in src.files && load(src.files[BodyName(key)]).Some? && load(src.files[BodyName(key)]).value.Obj?
  }

  /** The body of `key` loads as an object and every file under its directory opens:
      exactly when `write_files` gets through that key. */
  predicate Writes(src: SourceDir, key: string, load: Load) {
    Loads(src, key, load) && Readable(TreeOf(src, key))
  }

  /** One iteration of `write_files`: open `key.json`, load it, assign the metadata with
      the attachments of the directory `key`. */
  function WriteFile(src: SourceDir, key: string, digest: HexDigest, load: Load, guess: Guess): (r: Result<Json, Error>)
    ensures r.Success? <==> Writes(src, key, load)
    ensures BodyName(key) !in src.files ==> r == Failure(CannotOpen(BodyName(key)))
    ensures BodyName(key) in src.files && load(src.files[BodyName(key)]).None? ==> r == Failure(MalformedJson(BodyName(key)))
    ensures BodyName(key) in src.files && load(src.files[BodyName(key)]).Some? && !load(src.files[BodyName(key)]).value.Obj? ==>
      r == Failure(NotAnObject(BodyName(key)))
    ensures Loads(src, key, load) && !Readable(TreeOf(src, key)) ==>
      exists i: nat :: FirstUnreadable(TreeOf(src, key), i) && r == Failure(CannotOpenAttachment(TreeOf(src, key)[i].path))
    ensures r.Success? ==>
      Some(r.value) == Assemble(load(src.files[BodyName(key)]).value, key, digest, PackTree(TreeOf(src, key), guess))
  {
    var name := BodyName(key);
    if name !in src.files then Failure(CannotOpen(name))
    else match load(src.files[name])
      case None => Failure(MalformedJson(name))
      case Some(body) =>
        if !body.Obj? then Failure(NotAnObject(name))
        else match ProcessAttachments(TreeOf(src, key), guess)
          case Failure(e) => Failure(e)
          case Success(attachments) => Success(Assemble(body, key, digest, attachments).value)
  }

  function Min(a: nat, b: nat): nat {
    if a <= b then a else b
  }

  /** Iteration `i` is the first of the loop that raises, and it raises `e`. */
  predicate FirstFailure(keys: seq<string>, digests: seq<HexDigest>, write: (string, HexDigest) -> Result<Json, Error>, i: nat, e: Error) {
    && i < |keys| && i < |digests|
    && write(keys[i], digests[i]) == Failure(e)
    && forall j :: 0 <= j < i ==> write(keys[j], digests[j]).Success?
  }

  /** The first `n` iterations of the loop over `zip(keys, digests)`, with `write` as the
      loop body: the documents in order, each with its key, or the first error raised. */
  function WriteFilesUpTo(keys: seq<string>, digests: seq<HexDigest>, n: nat, write: (string, HexDigest) -> Result<Json, Error>)
    : (r: Result<seq<(string, Json)>, Error>)
    requires n <= |keys| && n <= |digests|
    ensures r.Success? <==> forall i :: 0 <= i < n ==> write(keys[i], digests[i]).Success?
    ensures r.Success? ==> |r.value| == n
    ensures r.Success? ==> forall i :: 0 <= i < n ==> r.value[i] == (keys[i], write(keys[i], digests[i]).value)
    ensures r.Failure? ==> exists i: nat :: i < n && FirstFailure(keys, digests, write, i, r.error)
    decreases n
  {
    if n == 0 then Success([])
    else match WriteFilesUpTo(keys, digests, n - 1, write)
      case Failure(e) => Failure(e)
      case Success(docs) =>
        match write(keys[n - 1], digests[n - 1])
        case Failure(e) =>
          assert FirstFailure(keys, digests, write, n - 1, e);
          Failure(e)
        case Success(doc) => Success(docs + [(keys[n - 1], doc)])
  }

  /** The document assembled for `key` with digest `d`. */
  predicate IsDocumentOf(doc: Json, src: SourceDir, key: string, d: HexDigest, load: Load, guess: Guess)
    requires Writes(src, key, load)
  {
    Some(doc) == Assemble(load(src.files[BodyName(key)]).value, key, d, PackTree(TreeOf(src, key), guess))
  }

  /** Iteration `i` is the first of `write_files` that raises, and it raises `e`. */
  predicate FailsFirstAt(src: SourceDir, keys: seq<string>, digests: seq<HexDigest>, load: Load, guess: Guess, i: nat, e: Error) {
    && i < |keys| && i < |digests|
    && !Writes(src, keys[i], load)
    && WriteFile(src, keys[i], digests[i], load, guess) == Failure(e)
    && forall j :: 0 <= j < i ==> Writes(src, keys[j], load)
  }

  /** What the loop of `write_files` computes when its body is `WriteFile`. */
  lemma WriteFilesUpToOf(src: SourceDir, keys: seq<string>, digests: seq<HexDigest>, load: Load, guess: Guess,
                         write: (string, HexDigest) -> Result<Json, Error>)
    requires forall k, d :: write(k, d) == WriteFile(src, k, d, load, guess)
    ensures var r := WriteFilesUpTo(keys, digests, Min(|keys|, |digests|), write);
      && (r.Success? <==> forall i :: 0 <= i < Min(|keys|, |digests|) ==> Writes(src, keys[i], load))
      && (r.Success? ==> |r.value| == Min(|keys|, |digests|))
      && (r.Success? ==> forall i :: 0 <= i < |r.value| ==> r.value[i].0 == keys[i])
      && (r.Success? ==> forall i :: 0 <= i < |r.value| ==> IsDocumentOf(r.value[i].1, src, keys[i], digests[i], load, guess))
      && (r.Failure? ==> exists i: nat :: FailsFirstAt(src, keys, digests, load, guess, i, r.error))
  {
    var r := WriteFilesUpTo(keys, digests, Min(|keys|, |digests|), write);
    if r.Failure? {
      var i: nat :| i < Min(|keys|, |digests|) && FirstFailure(keys, digests, write, i, r.error);
      assert FailsFirstAt(src, keys, digests, load, guess, i, r.error);
    }
  }

  /** `write_files`: the documents of `zip(keys, digests)` in order, each named by its key;
      the first document that raises ends the build with that error. */
  function WriteFiles(src: SourceDir, keys: seq<string>, digests: seq<HexDigest>, load: Load, guess: Guess)
    : (r: Result<seq<(string, Json)>, Error>)
    ensures r.Success? <==> forall i :: 0 <= i < Min(|keys|, |digests|) ==> Writes(src, keys[i], load)
    ensures r.Success? ==> |r.value| == Min(|keys|, |digests|)
    ensures r.Success? ==> forall i :: 0 <= i < |r.value| ==> r.value[i].0 == keys[i]
    ensures r.Success? ==> forall i :: 0 <= i < |r.value| ==> IsDocumentOf(r.value[i].1, src, keys[i], digests[i], load, guess)
    ensures r.Failure? ==> exists i: nat :: FailsFirstAt(src, keys, digests, load, guess, i, r.error)
  {
    var write := (k: string, d: HexDigest) => WriteFile(src, k, d, load, guess);
    WriteFilesUpToOf(src, keys, digests, load, guess, write);
    WriteFilesUpTo(keys, digests, Min(|keys|, |digests|), write)
  }
}

=== FILE: json.dfy ===
/** JSON values as Python's `json.load` returns them. An object is an ordered list of
    fields, because a Python `dict` keeps insertion order and `json.dump` writes fields in
    that order. */
module Json {
  import opened Wrappers

  datatype Json =
    | Null
    | Bool(b: bool)
    | Int(i: int)
    | Real(literal: string)
    | Str(s: string)
    | Arr(items: seq<Json>)
    | Obj(fields: Fields)

  type Fields = seq<(string, Json)>

  /** The field names of an object, in order. */
  function Names(f: Fields): (r: seq<string>)
    ensures |r| == |f|
    ensures forall i :: 0 <= i < |f| ==> r[i] == f[i].0
    decreases |f|
  {
    if |f| == 0 then [] else [f[0].0] + Names(f[1..])
  }

  /** A well-formed Python dict: no name occurs twice. */
  predicate UniqueNames(f: Fields) {
    forall i, j :: 0 <= i < j < |f| ==> f[i].0 != f[j].0
  }

  /** The position of the first occurrence of `k` in `names`. */
  function Find(names: seq<string>, k: string): (r: Option<nat>)
    ensures r.None? <==> k !in names
    ensures r.Some? ==> r.value < |names| && names[r.value] == k
    ensures r.Some? ==> k !in names[..r.value]
    decreases |names|
  {
    if |names| == 0 then None
    else if names[0] == k then Some(0)
    else
      match Find(names[1..], k)
      case None => None
      case Some(i) => assert names[..i + 1] == [names[0]] + names[1..][..i]; Some(i + 1)
  }

  /** Any first occurrence of `k` is the one `Find` reports. */
  lemma {:induction false} FindFirst(names: seq<string>, k: string, i: nat)
    requires i < |names| && names[i] == k
    requires k !in names[..i]
    ensures Find(names, k) == Some(i)
    decreases i
  {
    if i > 0 {
      assert names[0] in names[..i];
      assert names[1..][..i - 1] == names[..i][1..];
      FindFirst(names[1..], k, i - 1);
    }
  }

  /** Appending a different name does not move the first occurrence of `k`. */
  lemma FindAppendOther(names: seq<string>, x: string, k: string)
    requires k != x
    ensures Find(names + [x], k) == Find(names, k)
  {
    if k in names {
      var i := Find(names, k).value;
      assert (names + [x])[..i] == names[..i];
      FindFirst(names + [x], k, i);
    }
  }

  /** `d.get(k)`: the value of the field named `k`. */
  function Get(f: Fields, k: string): (r: Option<Json>)
    ensures r.None? <==> k !in Names(f)
  {
    match Find(Names(f), k)
    case None => None
    case Some(i) => Some(f[i].1)
  }

  /** `d[k] = v`: an existing field keeps its position and takes the new value; a new
      field goes at the end. */
  function Set(f: Fields, k: string, v: Json): (r: Fields)
    ensures Get(r, k) == Some(v)
    ensures forall k' :: k' != k ==> Get(r, k') == Get(f, k')
    ensures k in Names(f) ==> Names(r) == Names(f)
    ensures k !in Names(f) ==> Names(r) == Names(f) + [k]
  {
    match Find(Names(f), k)
    case Some(i) =>
      var r := f[i := (k, v)];
      assert Names(r) == Names(f);
      r
    case None =>
      var r := f + [(k, v)];
      assert Names(r) == Names(f) + [k];
      FindFirst(Names(r), k, |f|);
      assert forall k' | k' != k :: Find(Names(r), k') == Find(Names(f), k') by {
        forall k' | k' != k ensures Find(Names(r), k') == Find(Names(f), k') {
          FindAppendOther(Names(f), k, k');
        }
      }
      r
  }

  /** Assigning a field never creates a second field of the same name. */
  lemma SetKeepsNamesUnique(f: Fields, k: string, v: Json)
    requires UniqueNames(f)
    ensures UniqueNames(Set(f, k, v))
  {
    var r := Set(f, k, v);
    forall i, j | 0 <= i < j < |r|
      ensures r[i].0 != r[j].0
    {
      assert Names(r)[i] == r[i].0 && Names(r)[j] == r[j].0;
      if k !in Names(f) && j == |f| {
        assert r[i].0 == Names(f)[i];
      } else {
        assert Names(r)[i] == Names(f)[i] && Names(r)[j] == Names(f)[j];
      }
    }
  }

  /** Assigning a field keeps every existing name where it was: the old names are a prefix
      of the new ones. */
  lemma SetKeepsOrder(f: Fields, k: string, v: Json)
    ensures Names(f) <= Names(Set(f, k, v))
  {
    if k !in Names(f) {
      assert Names(Set(f, k, v))[..|f|] == Names(f);
    }
  }

  lemma PrefixTransitive(a: seq<string>, b: seq<string>, c: seq<string>)
    requires a <= b && b <= c
    ensures a <= c
  {
    assert c[..|a|] == c[..|b|][..|a|];
  }
}

=== FILE: listing.dfy ===
/** Key discovery: which entries of the source directory name documents
    (`json_files`, static-couch.py:47-53). */
module Listing {
  import opened Wrappers

  predicate AllDots(s: string) {
    forall i :: 0 <= i < |s| ==> s[i] == '.'
  }

  /** Position of the last '.' in `s`. */
  function LastDot(s: string): (r: Option<nat>)
    ensures r.None? <==> '.' !in s
    ensures r.Some? ==> r.value < |s| && s[r.value] == '.' && '.' !in s[r.value + 1..]
    decreases |s|
  {
    if |s| == 0 then None
    else if s[|s| - 1] == '.' then Some(|s| - 1)
    else
      var r := LastDot(s[..|s| - 1]);
      assert r.Some? ==> s[r.value + 1..] == s[..|s| - 1][r.value + 1..] + [s[|s| - 1]];
      r
  }

  /** Python's `os.path.splitext` on a directory entry (a name without '/'): the extension
      runs from the last '.' to the end, unless everything before that dot is a dot too
      (a leading-dot name such as `.json` or `..json` has no extension). */
  function SplitExt(name: string): (r: (string, string))
    ensures r.0 + r.1 == name
  {
    match LastDot(name)
    case None => (name, "")
    case Some(d) =>
      if AllDots(name[..d]) then (name, "")
      else
        assert name[..d] + name[d..] == name;
        (name[..d], name[d..])
  }

  /** An extension is a dot followed by no other dot, after a root that is not all dots;
      a name gets no extension only when every candidate dot has just dots before it. */
  lemma SplitExtShape(name: string)
    ensures var r := SplitExt(name);
      r.1 != "" ==> r.1[0] == '.' && '.' !in r.1[1..] && !AllDots(r.0)
    ensures var r := SplitExt(name);
      r.1 == "" ==> forall d :: 0 <= d < |name| && name[d] == '.' && '.' !in name[d + 1..] ==> AllDots(name[..d])
  {
    match LastDot(name)
    case None =>
    case Some(d) =>
      assert name[d..][1..] == name[d + 1..];
      forall d' | 0 <= d' < |name| && name[d'] == '.' && '.' !in name[d' + 1..]
        ensures d' == d
      {
        LastDotAt(name, d');
      }
  }

  /** The entry names a document: its extension is exactly `.json`. */
  predicate IsJsonName(name: string) {
    SplitExt(name).1 == ".json"
  }

  /** The document key an entry names: the entry without its extension. */
  function Stem(name: string): string {
    SplitExt(name).0
  }

  /** Entry `i` of the listing is a `.json` entry whose stem is `k`. */
  predicate NamesKey(listing: seq<string>, i: nat, k: string) {
    i < |listing| && IsJsonName(listing[i]) && Stem(listing[i]) == k
  }

  /** `json_files`: the stems of the `.json` entries, in listing order. */
  function JsonFiles(listing: seq<string>): (keys: seq<string>)
    ensures |keys| <= |listing|
    decreases |listing|
  {
    if |listing| == 0 then []
    else
      var last := listing[|listing| - 1];
      JsonFiles(listing[..|listing| - 1]) + (if IsJsonName(last) then [Stem(last)] else [])
  }

  /** Every `.json` entry contributes its stem as a key. */
  lemma {:induction false} JsonFilesComplete(listing: seq<string>)
    ensures forall i :: 0 <= i < |listing| && IsJsonName(listing[i]) ==> Stem(listing[i]) in JsonFiles(listing)
    decreases |listing|
  {
    if |listing| > 0 {
      var init := listing[..|listing| - 1];
      JsonFilesComplete(init);
      forall i | 0 <= i < |init| && IsJsonName(listing[i])
        ensures Stem(listing[i]) in JsonFiles(listing)
      {
        assert init[i] == listing[i];
      }
    }
  }

  /** Every key is the stem of a `.json` entry. */
  lemma {:induction false} JsonFilesSound(listing: seq<string>)
    ensures forall k :: k in JsonFiles(listing) ==> exists i :: 0 <= i < |listing| && NamesKey(listing, i, k)
    decreases |listing|
  {
    if |listing| > 0 {
      var init := listing[..|listing| - 1];
      JsonFilesSound(init);
      forall k | k in JsonFiles(listing)
        ensures exists i :: 0 <= i < |listing| && NamesKey(listing, i, k)
      {
        if k in JsonFiles(init) {
          var i :| 0 <= i < |init| && NamesKey(init, i, k);
          assert NamesKey(listing, i, k);
        } else {
          assert NamesKey(listing, |init|, k);
        }
      }
    }
  }

  /** A dot with no dot after it is the last dot. */
  lemma {:induction false} LastDotAt(s: string, d: nat)
    requires d < |s| && s[d] == '.' && '.' !in s[d + 1..]
    ensures LastDot(s) == Some(d)
    decreases |s|
  {
    if d < |s| - 1 {
      assert s[|s| - 1] == s[d + 1..][|s| - d - 2];
      assert s[..|s| - 1][d + 1..] == s[d + 1..|s| - 1];
      LastDotAt(s[..|s| - 1], d);
    }
  }

  /** An entry names a document exactly when it ends in `.json` and something other than
      dots comes before that; the key is what comes before. */
  lemma JsonNameIff(name: string)
    ensures IsJsonName(name) <==>
      |name| > 5 && name[|name| - 5..] == ".json" && !AllDots(name[..|name| - 5])
    ensures IsJsonName(name) ==> Stem(name) == name[..|name| - 5]
  {
    var r := SplitExt(name);
    if IsJsonName(name) {
      assert name == r.0 + ".json";
      assert name[|name| - 5..] == ".json";
      assert name[..|name| - 5] == r.0;
    } else if |name| > 5 && name[|name| - 5..] == ".json" {
      var d := |name| - 5;
      assert name[d + 1..] == "json";
      LastDotAt(name, d);
    }
  }

  /** Keys keep listing order: the keys of a concatenated listing are the keys of each part,
      in turn. */
  lemma {:induction false} JsonFilesConcat(a: seq<string>, b: seq<string>)
    ensures JsonFiles(a + b) == JsonFiles(a) + JsonFiles(b)
    decreases |b|
  {
    if |b| > 0 {
      var b' := b[..|b| - 1];
      assert (a + b)[..|a + b| - 1] == a + b';
      assert (a + b)[|a + b| - 1] == b[|b| - 1];
      JsonFilesConcat(a, b');
    } else {
      assert a + b == a;
    }
  }

  /** A directory listing never repeats a name, and then no key is repeated either. */
  lemma {:induction false} JsonFilesDistinct(listing: seq<string>)
    requires forall i, j :: 0 <= i < j < |listing| ==> listing[i] != listing[j]
    ensures forall i, j :: 0 <= i < j < |JsonFiles(listing)| ==> JsonFiles(listing)[i] != JsonFiles(listing)[j]
    decreases |listing|
  {
    if |listing| > 0 {
      var init := listing[..|listing| - 1];
      var last := listing[|listing| - 1];
      JsonFilesDistinct(init);
      JsonFilesSound(init);
      if IsJsonName(last) {
        forall i | 0 <= i < |init| && IsJsonName(init[i])
          ensures Stem(init[i]) != Stem(last)
        {
          assert init[i] == Stem(init[i]) + ".json";
          assert last == Stem(last) + ".json";
          assert init[i] == listing[i];
        }
        var ks := JsonFiles(init);
        assert Stem(last) !in ks;
        assert JsonFiles(listing) == ks + [Stem(last)];
        forall i, j | 0 <= i < j < |ks| + 1
          ensures (ks + [Stem(last)])[i] != (ks + [Stem(last)])[j]
        {
          if j == |ks| {
            assert ks[i] in ks;
          }
        }
      }
    }
  }
}

=== FILE: mirror.dfy ===
/** The whole local build, `main` (static-couch.py:105-115): discover the keys, write
    `_changes`, write one document per key, then write `index.html`. The output directory
    is a map from file name to what was last written under that name. */
module Mirror {
  import opened Wrappers
  import opened Text
  import opened Json
  import opened Digest
  import opened Source
  import opened Listing
  import opened Changes
  import opened Attachments
  import opened Documents

  datatype Artifact = TextFile(content: string) | DocFile(doc: Json)

  type OutDir = map<string, Artifact>

  const ChangesName := "_changes"
  const IndexName := "index.html"
  const UpdateSeqOpen := "{\"update_seq\": "

  /** `json.dumps({"update_seq": n})` (default separators, so a space after the colon)
      followed by a newline. */
  function IndexText(n: nat): string {
    UpdateSeqOpen + NatToString(n) + "}\n"
  }

  /** Reads `update_seq` back from an `index.html` written by the build. */
  function ParseUpdateSeq(text: string): Option<nat> {
    if |text| < |UpdateSeqOpen| + 2 || text[..|UpdateSeqOpen|] != UpdateSeqOpen || text[|text| - 2..] != "}\n" then None
    else ParseNat(text[|UpdateSeqOpen|..|text| - 2])
  }

  lemma ParseUpdateSeqOf(n: nat)
    ensures ParseUpdateSeq(IndexText(n)) == Some(n)
  {
    var text := IndexText(n);
    assert text[..|UpdateSeqOpen|] == UpdateSeqOpen;
    assert text[|text| - 2..] == "}\n";
    assert text[|UpdateSeqOpen|..|text| - 2] == NatToString(n);
    ParseNatOfNatToString(n);
  }

  /** The file names of the documents to write, in write order. */
  function DocNames(docs: seq<(string, Json)>): (r: seq<string>)
    ensures |r| == |docs|
    ensures forall i :: 0 <= i < |docs| ==> r[i] == docs[i].0
  {
    seq(|docs|, i requires 0 <= i < |docs| => docs[i].0)
  }

  /** No two documents are written under the same file name. */
  predicate DistinctNames(docs: seq<(string, Json)>) {
    forall i, j :: 0 <= i < j < |docs| ==> docs[i].0 != docs[j].0
  }

  /** No later document has the same name as document `i`. */
  predicate LastNamed(docs: seq<(string, Json)>, i: nat)
    requires i < |docs|
  {
    forall j :: i < j < |docs| ==> docs[j].0 != docs[i].0
  }

  /** Writing the documents in order: the files are the ones there before and one per
      document name. */
  function WriteDocs(out: OutDir, docs: seq<(string, Json)>): (r: OutDir)
    ensures forall k :: k in r <==> k in out || k in DocNames(docs)
    decreases |docs|
  {
    if |docs| == 0 then out
    else
      var init := docs[..|docs| - 1];
      assert DocNames(docs) == DocNames(init) + [docs[|docs| - 1].0];
      WriteDocs(out, init)[docs[|docs| - 1].0 := DocFile(docs[|docs| - 1].1)]
  }

  /** A file holds the last document written under its name. */
  lemma {:induction false} WriteDocsLast(out: OutDir, docs: seq<(string, Json)>, i: nat)
    requires i < |docs| && LastNamed(docs, i)
    ensures docs[i].0 in WriteDocs(out, docs)
    ensures WriteDocs(out, docs)[docs[i].0] == DocFile(docs[i].1)
    decreases |docs|
  {
    var init := docs[..|docs| - 1];
    if i < |docs| - 1 {
      assert init[i] == docs[i];
      assert LastNamed(init, i);
      WriteDocsLast(out, init, i);
    }
  }

  /** A file no document names keeps what it held. */
  lemma {:induction false} WriteDocsKeeps(out: OutDir, docs: seq<(string, Json)>, k: string)
    requires k in out
    ensures k !in DocNames(docs) ==> WriteDocs(out, docs)[k] == out[k]
    decreases |docs|
  {
    if |docs| > 0 {
      var init := docs[..|docs| - 1];
      assert DocNames(docs) == DocNames(init) + [docs[|docs| - 1].0];
      WriteDocsKeeps(out, init, k);
    }
  }

  /** The digest of every key's body file, in key order. */
  function BodyDigests(src: SourceDir, keys: seq<string>, md5: Md5): (r: seq<HexDigest>)
    requires BodiesPresent(keys, src.files)
    ensures |r| == |keys|
  {
    seq(|keys|, i requires 0 <= i < |keys| => md5(src.files[BodyName(keys[i])]))
  }

  /** The output directory after `_changes`, the documents and then `index.html` have been
      written. With distinct document names every document survives, except one named
      `index.html`, which the index overwrites; `_changes` survives unless a document
      takes its name. */
  function Output(feed: string, n: nat, docs: seq<(string, Json)>): (r: OutDir)
    requires DistinctNames(docs)
    ensures forall k :: k in r <==> k == ChangesName || k == IndexName || k in DocNames(docs)
    ensures r[IndexName] == TextFile(IndexText(n))
    ensures ChangesName !in DocNames(docs) ==> r[ChangesName] == TextFile(feed)
    ensures forall i :: 0 <= i < |docs| && docs[i].0 != IndexName ==> docs[i].0 in r && r[docs[i].0] == DocFile(docs[i].1)
  {
    var out := WriteDocs(map[ChangesName := TextFile(feed)], docs);
    forall i | 0 <= i < |docs|
      ensures docs[i].0 in out && out[docs[i].0] == DocFile(docs[i].1)
    {
      WriteDocsLast(map[ChangesName := TextFile(feed)], docs, i);
    }
    WriteDocsKeeps(map[ChangesName := TextFile(feed)], docs, ChangesName);
    out[IndexName := TextFile(IndexText(n))]
  }

  /** Key `j` is the first whose body file is missing, and the build raises opening it. */
  predicate FirstMissing(src: SourceDir, keys: seq<string>, j: nat, e: Error) {
    && j < |keys|
    && BodyName(keys[j]) !in src.files
    && e == CannotOpen(BodyName(keys[j]))
    && forall j' :: 0 <= j' < j ==> BodyName(keys[j']) in src.files
  }

  /** A key whose body file is missing is a key whose body does not load. */
  lemma MissingBodyDoesNotLoad(src: SourceDir, keys: seq<string>, load: Load)
    requires !BodiesPresent(keys, src.files)
    ensures exists i :: 0 <= i < |keys| && !Writes(src, keys[i], load)
  {
    var j :| 0 <= j < |keys| && BodyName(keys[j]) !in src.files;
    assert !Writes(src, keys[j], load);
  }

  /** The files of a build: one per key, `_changes` and `index.html`; `index.html` holds
      `update_seq`, `_changes` holds the feed unless a key took its name, and every key
      other than `index.html` holds a document. */
  ghost predicate Lays(out: OutDir, keys: seq<string>, feed: string) {
    && (forall k :: k in out <==> k == ChangesName || k == IndexName || k in keys)
    && IndexName in out && out[IndexName] == TextFile(IndexText(|keys|))
    && (ChangesName !in keys ==> ChangesName in out && out[ChangesName] == TextFile(feed))
    && forall i :: 0 <= i < |keys| && keys[i] != IndexName ==> keys[i] in out && out[keys[i]].DocFile?
  }

  /** Every key other than `index.html` holds the document assembled from its body. */
  ghost predicate HoldsDocuments(out: OutDir, src: SourceDir, keys: seq<string>, digests: seq<HexDigest>, load: Load, guess: Guess) {
    forall i :: 0 <= i < |keys| && keys[i] != IndexName ==>
      && i < |digests|
      && keys[i] in out
      && out[keys[i]].DocFile?
      && Writes(src, keys[i], load)
      && IsDocumentOf(out[keys[i]].doc, src, keys[i], digests[i], load, guess)
  }

  /** `out` is the mirror of `src`, for the keys `json_files` finds and the MD5 digests of
      their bodies. */
  ghost predicate Mirrors(out: OutDir, src: SourceDir, md5: Md5, load: Load, guess: Guess) {
    var keys := JsonFiles(src.listing);
    && keys != []
    && BodiesPresent(keys, src.files)
    && Lays(out, keys, Unlines(FeedLines(keys, BodyDigests(src, keys, md5))))
    && HoldsDocuments(out, src, keys, BodyDigests(src, keys, md5), load, guess)
  }

  /** Writing `_changes`, then the documents with distinct names, then `index.html` lays
      out the files of a build, each key holding its own document. */
  lemma OutputLays(feed: string, docs: seq<(string, Json)>, keys: seq<string>)
    requires |docs| == |keys|
    requires forall i :: 0 <= i < |docs| ==> docs[i].0 == keys[i]
    requires DistinctNames(docs)
    ensures Lays(Output(feed, |keys|, docs), keys, feed)
    ensures forall i :: 0 <= i < |keys| && keys[i] != IndexName ==> Output(feed, |keys|, docs)[keys[i]] == DocFile(docs[i].1)
  {
    assert DocNames(docs) == keys;
  }

  /** The documents `write_files` returns are the ones the mirror holds. */
  lemma OutputHoldsDocuments(feed: string, docs: seq<(string, Json)>, src: SourceDir, keys: seq<string>,
                             digests: seq<HexDigest>, load: Load, guess: Guess)
    requires |docs| == |keys| == |digests|
    requires forall i :: 0 <= i < |docs| ==> docs[i].0 == keys[i]
    requires DistinctNames(docs)
    requires forall i :: 0 <= i < |keys| ==> Writes(src, keys[i], load)
    requires forall i :: 0 <= i < |docs| ==> IsDocumentOf(docs[i].1, src, keys[i], digests[i], load, guess)
    ensures HoldsDocuments(Output(feed, |keys|, docs), src, keys, digests, load, guess)
  {
    var out := Output(feed, |keys|, docs);
    OutputLays(feed, docs, keys);
    forall i | 0 <= i < |keys| && keys[i] != IndexName
      ensures keys[i] in out && out[keys[i]].DocFile?
      ensures IsDocumentOf(out[keys[i]].doc, src, keys[i], digests[i], load, guess)
    {
      assert out[keys[i]].doc == docs[i].1;
    }
  }

  /** `main` for a local source directory. It fails when the directory holds no `.json`
      file, and otherwise exactly when some body is missing, malformed or not an object, or
      some file under a key's directory does not open. */
  method BuildMirror(src: SourceDir, md5: Md5, load: Load, guess: Guess) returns (r: Result<OutDir, Error>)
    ensures JsonFiles(src.listing) == [] ==> r == Failure(UnboundLastSeq)
    ensures r.Success? <==>
      JsonFiles(src.listing) != [] && forall i :: 0 <= i < |JsonFiles(src.listing)| ==> Writes(src, JsonFiles(src.listing)[i], load)
    ensures r.Failure? && JsonFiles(src.listing) != [] && !BodiesPresent(JsonFiles(src.listing), src.files) ==>
      exists j :: 0 <= j < |JsonFiles(src.listing)| && FirstMissing(src, JsonFiles(src.listing), j, r.error)
    ensures r.Failure? && JsonFiles(src.listing) != [] && BodiesPresent(JsonFiles(src.listing), src.files) ==>
      exists i: nat :: FailsFirstAt(src, JsonFiles(src.listing), BodyDigests(src, JsonFiles(src.listing), md5), load, guess, i, r.error)
    ensures r.Success? ==> Mirrors(r.value, src, md5, load, guess)
  {
    var keys := JsonFiles(src.listing);
    var changes := WriteChanges(keys, src.files, md5);
    if changes.Failure? {
      if keys != [] {
        MissingBodyDoesNotLoad(src, keys, load);
        var j :| 0 <= j < |keys| && changes.error == CannotOpen(BodyName(keys[j])) && BodyName(keys[j]) !in src.files
          && forall j' :: 0 <= j' < j ==> BodyName(keys[j']) in src.files;
        assert FirstMissing(src, keys, j, changes.error);
      }
      return Failure(changes.error);
    }
    var (feed, digests) := changes.value;
    assert digests == BodyDigests(src, keys, md5);
    var written := WriteFiles(src, keys, digests, load, guess);
    if written.Failure? {
      return Failure(written.error);
    }
    var docs := written.value;
    JsonFilesDistinct(src.listing);
    assert DistinctNames(docs);
    OutputLays(feed, docs, keys);
    OutputHoldsDocuments(feed, docs, src, keys, digests, load, guess);
    r := Success(Output(feed, |keys|, docs));
  }

  /** The number `index.html` advertises as `update_seq` is the `last_seq` that ends the
      feed in `_changes`, and both are the number of documents. */
  lemma UpdateSeqIsLastSeq(out: OutDir, src: SourceDir, md5: Md5, load: Load, guess: Guess)
    requires Mirrors(out, src, md5, load, guess)
    requires ChangesName !in JsonFiles(src.listing)
    requires forall i :: 0 <= i < |JsonFiles(src.listing)| ==> NoNewline(JsonFiles(src.listing)[i])
    ensures out[ChangesName].TextFile? && out[IndexName].TextFile?
    ensures ParseFeed(out[ChangesName].content).Some?
    ensures ParseUpdateSeq(out[IndexName].content) == Some(ParseFeed(out[ChangesName].content).value.lastSeq)
    ensures ParseFeed(out[ChangesName].content).value.lastSeq == |JsonFiles(src.listing)|
  {
    var keys := JsonFiles(src.listing);
    ParseFeedOf(keys, BodyDigests(src, keys, md5));
    ParseUpdateSeqOf(|keys|);
  }

  /** `json.load` builds a Python dict for a JSON object, so a loaded object never repeats
      a field name. */
  ghost predicate LoadsDicts(load: Load) {
    forall b :: load(b).Some? && load(b).value.Obj? ==> UniqueNames(load(b).value.fields)
  }

  /** In a mirror every document file holds an object without repeated field names. */
  lemma MirrorDocumentsUnique(out: OutDir, src: SourceDir, md5: Md5, load: Load, guess: Guess)
    requires Mirrors(out, src, md5, load, guess)
    requires LoadsDicts(load)
    ensures forall i :: 0 <= i < |JsonFiles(src.listing)| && JsonFiles(src.listing)[i] != IndexName ==>
      && JsonFiles(src.listing)[i] in out
      && out[JsonFiles(src.listing)[i]].DocFile?
      && out[JsonFiles(src.listing)[i]].doc.Obj?
      && UniqueNames(out[JsonFiles(src.listing)[i]].doc.fields)
  {
    var keys := JsonFiles(src.listing);
    var digests := BodyDigests(src, keys, md5);
    forall i | 0 <= i < |keys| && keys[i] != IndexName
      ensures keys[i] in out && out[keys[i]].DocFile? && out[keys[i]].doc.Obj? && UniqueNames(out[keys[i]].doc.fields)
    {
      var body := load(src.files[BodyName(keys[i])]).value;
      AssembleKeepsNamesUnique(body, keys[i], digests[i], PackTree(TreeOf(src, keys[i]), guess));
    }
  }
}

=== FILE: source.dfy ===
/** The inputs of one build, with the file system abstracted to values, and the
    exceptions a build can raise. */
module Source {
  import opened Wrappers
  import opened Text

  /** One file name `os.walk` lists under a document's directory: the path it is opened by
      (`os.path.join(dirpath, filename)`), its path relative to the document directory
      (`os.path.relpath`), and its contents, or `None` when `open` raises on it (a dangling
      symbolic link, a file without read permission). */
  datatype AttFile = AttFile(path: string, relPath: string, content: Option<seq<Byte>>)

  /** The files of one document directory, in `os.walk` order. A missing directory walks
      to nothing. */
  type Tree = seq<AttFile>

  /** What `os.listdir` returns: the entry names of a directory, each once, in the order
      the file system gives them. */
  type Listing = s: seq<string> | forall i, j :: 0 <= i < j < |s| ==> s[i] != s[j]

  /** The source directory: its entry names, the contents of its top-level regular files
      by name, and the file tree under each document directory by key. */
  datatype SourceDir = SourceDir(listing: Listing, files: map<string, seq<Byte>>, trees: map<string, Tree>)

  /** The attachment tree of `key` (`os.walk(src/key)`): empty when there is no such directory. */
  function TreeOf(src: SourceDir, key: string): Tree {
    if key in src.trees then src.trees[key] else []
  }

  /** The body file of a document. */
  function BodyName(key: string): string {
    key + ".json"
  }

  /** What a build can raise. */
  datatype Error =
    | CannotOpen(name: string)      // `open` of a body file that is not a readable file
    | UnboundLastSeq                // `last_seq` formatted with `i` never bound: no keys at all
    | MalformedJson(name: string)   // `json.load` rejects the body file
    | NotAnObject(name: string)     // the body is valid JSON but not an object, so `doc['_id'] = ...` raises
    | CannotOpenAttachment(path: string)  // `open` of a file under the document directory raises
}

=== FILE: text.dfy ===
/** Bytes, decimal numerals and newline-separated lines: the textual building blocks
    of the files the mirror builder writes. */
module Text {
  import opened Wrappers

  /** One octet of a file's contents. */
  type Byte = b: int | 0 <= b < 256

  predicate IsDigit(c: char) {
    '0' <= c <= '9'
  }

  function DigitChar(d: int): (c: char)
    requires 0 <= d < 10
    ensures IsDigit(c)
  {
    (48 + d) as char
  }

  /** The decimal numeral Python's `str.format` writes for a non-negative integer. */
  function NatToString(n: nat): (s: string)
    ensures |s| > 0
    ensures forall i :: 0 <= i < |s| ==> IsDigit(s[i])
    decreases n
  {
    if n < 10 then [DigitChar(n)] else NatToString(n / 10) + [DigitChar(n % 10)]
  }

  /** Reads a non-empty string of decimal digits back as a number; the inverse of `NatToString`. */
  function ParseNat(s: string): (r: Option<nat>)
    ensures r.Some? <==> (|s| > 0 && forall i :: 0 <= i < |s| ==> IsDigit(s[i]))
    decreases |s|
  {
    if |s| == 0 || !IsDigit(s[|s| - 1]) then None
    else if |s| == 1 then Some(s[0] as int - 48)
    else match ParseNat(s[..|s| - 1])
      case None => None
      case Some(h) => Some(h * 10 + (s[|s| - 1] as int - 48))
  }

  lemma {:induction false} ParseNatOfNatToString(n: nat)
    ensures ParseNat(NatToString(n)) == Some(n)
    decreases n
  {
    if n >= 10 {
      var s := NatToString(n);
      assert s[..|s| - 1] == NatToString(n / 10);
      ParseNatOfNatToString(n / 10);
    }
  }

  /** Index of the first occurrence of `c` in `s`. */
  function FirstIndex(s: string, c: char): (i: nat)
    requires c in s
    ensures i < |s| && s[i] == c && c !in s[..i]
    decreases |s|
  {
    if s[0] == c then 0 else 1 + FirstIndex(s[1..], c)
  }

  /** The pieces of `s` between newline characters, as Python's `s.split('\n')`. */
  function Lines(s: string): (r: seq<string>)
    ensures |r| > 0
    decreases |s|
  {
    if '\n' !in s then [s]
    else
      var i := FirstIndex(s, '\n');
      [s[..i]] + Lines(s[i + 1..])
  }

  /** The lines joined with a newline between consecutive ones, as Python's `'\n'.join(ls)`. */
  function Unlines(ls: seq<string>): string
    requires |ls| > 0
    decreases |ls|
  {
    if |ls| == 1 then ls[0] else ls[0] + "\n" + Unlines(ls[1..])
  }

  predicate NoNewline(s: string) {
    '\n' !in s
  }

  /** Splitting newline-free lines joined by newlines gives the lines back. */
  lemma {:induction false} LinesOfUnlines(ls: seq<string>)
    requires |ls| > 0
    requires forall i :: 0 <= i < |ls| ==> NoNewline(ls[i])
    ensures Lines(Unlines(ls)) == ls
    decreases |ls|
  {
    if |ls| > 1 {
      var s := Unlines(ls);
      var rest := Unlines(ls[1..]);
      assert s == ls[0] + "\n" + rest;
      assert s[|ls[0]|] == '\n';
      assert s[..|ls[0]|] == ls[0];
      assert FirstIndex(s, '\n') == |ls[0]|;
      assert s[|ls[0]| + 1..] == rest;
      LinesOfUnlines(ls[1..]);
    }
  }

  /** Appending one more line writes a newline and then that line. */
  lemma {:induction false} UnlinesSnoc(ls: seq<string>, x: string)
    requires |ls| > 0
    ensures Unlines(ls + [x]) == Unlines(ls) + "\n" + x
    decreases |ls|
  {
    if |ls| == 1 {
      assert ls + [x] == [ls[0], x];
    } else {
      assert (ls + [x])[1..] == ls[1..] + [x];
      UnlinesSnoc(ls[1..], x);
    }
  }

  /** Appending text to the last line is appending it to the joined text. */
  lemma {:induction false} UnlinesExtendLast(ls: seq<string>, t: string)
    requires |ls| > 0
    ensures Unlines(ls[..|ls| - 1] + [ls[|ls| - 1] + t]) == Unlines(ls) + t
    decreases |ls|
  {
    if |ls| == 1 {
      assert ls[..0] + [ls[0] + t] == [ls[0] + t];
    } else {
      var ls' := ls[..|ls| - 1] + [ls[|ls| - 1] + t];
      assert ls'[0] == ls[0];
      assert ls'[1..] == ls[1..][..|ls| - 2] + [ls[1..][|ls| - 2] + t];
      UnlinesExtendLast(ls[1..], t);
    }
  }

  /** The first `c` in `a + b` is the first character of `b` when `a` has none. */
  lemma {:induction false} FirstIndexAfter(a: string, b: string, c: char)
    requires c !in a && |b| > 0 && b[0] == c
    ensures c in a + b && FirstIndex(a + b, c) == |a|
    decreases |a|
  {
    var s := a + b;
    assert s[|a|] == c;
    if |a| > 0 {
      assert s[0] == a[0];
      assert s[1..] == a[1..] + b;
      FirstIndexAfter(a[1..], b, c);
    }
  }
}

=== FILE: wrappers.dfy ===
/** Failure-carrying result types shared by every stage of the mirror builder. */
module Wrappers {

  /** A value that may be absent (Python's `None`). */
  datatype Option<+T> = None | Some(value: T)

  /** The outcome of a stage that can raise: its value, or the exception it raises. */
  datatype Result<+R, +E> = Success(value: R) | Failure(error: E)
}
